=== FILE: README.md ===
# Image-feature pipelines: bag of visual words, zero-row repair, GLCM layout

This project models in Dafny the sequential logic of three parts of an image-classification
code base. The OpenCV and scikit-learn calls around that logic are kept abstract.

- **Bag of visual words** (`modulos/descritores/sift.py`):
  - `extrair_descritores_sift_locais` runs a keypoint detector over each image. It keeps
    an image and its label in lock-step only when the detector returned a descriptor
    matrix 128 columns wide.
  - `treinar_kmeans` pools every kept descriptor and fits a vocabulary of `k = 50`
    cluster centres.
  - `gerar_histogramas_bovw` turns each image's descriptors into a count vector of
    length `n_grupos`.
  - `extrair_sift_treinamento` and `extrair_sift_teste` chain these steps. Only the
    training path fits a vocabulary.
- **Zero-row repair** (`ajustar_amostras_zero` in `modulos/classificadores/mlp.py`):
  every all-zero sample gets a 1 in column 0, and every other sample is left as it is.
- **GLCM features** (`extrair_glcm` in `modulos/descritores/glcm.py`):
  - quantisation of 8-bit gray levels to 32 levels;
  - the layout of one image's feature vector, one flattened value matrix per property,
    in property order;
  - stacking the vectors;
  - the choice of `min(50, n_samples, n_features)` PCA components and whether PCA runs.

The modules follow the program's structure:

| file | module | models |
|---|---|---|
| `wrappers.dfy` | `Wrappers` | `Option`, `Result`, and a map over a sequence that stops at the first error. |
| `seqs.dfy` | `Seqs` | Concatenation of a sequence of sequences. `vstack`, `flatten` and `extend` in a loop are all this one operation. |
| `matrices.dfy` | `Matrices` | 2-D numpy arrays as a rectangular `Matrix`, and row-major `flatten`. |
| `descriptors.dfy` | `Descriptors` | Detection, the 128-column filter and label alignment. |
| `vocabulary.dfy` | `Vocabulary` | The descriptor pool, the fitted centres and nearest-centre `predict`. |
| `histogram.dfy` | `Histogram` | Histogram counting, one image at a time and for a whole batch. |
| `pipeline.dfy` | `Pipeline` | The training and test entry points. |
| `zero_rows.dfy` | `ZeroRows` | `ajustar_amostras_zero`. |
| `glcm.dfy` | `Glcm` | Quantisation, feature layout, stacking and the PCA branch. |

Python exceptions are modelled as `Failure` values of a `Result`:

- `np.vstack([])`: `FitError.EmptyDescriptorList`.
- k-means with fewer samples than clusters: `FitError.TooFewSamples`.
- A histogram index past `n_grupos`: `EncodeError.ClusterOutOfRange`, carrying the first offending index.
- `predict` on a descriptor matrix with no rows (scikit-learn rejects an empty input): `EncodeError.NoSamples`.
- Column 0 of an array that has no columns: `AdjustError.NoColumnZero`.
- A feature list that does not stack into a 2-D array: `GlcmError.NotTwoDimensional`.

Opaque library calls are function-valued parameters:

- the detector `I -> Option<Matrix<real>>`, which covers the halving resize, the gray
  conversion, the median blur and `detectAndCompute`;
- the k-means centre fit and the distance used for `predict`;
- `graycoprops(graycomatrix(...))`;
- PCA's `fit_transform`.

## Modelling choices

- **Filter.** An image is kept when the detector returns a matrix whose width is 128
  (`sift.py:53`). Its number of rows is not checked, so a descriptor matrix with zero
  rows would be kept. Encoding then raises at `predict` (`sift.py:117`), and the model
  fails with `NoSamples` there. OpenCV returns `None` for an image without keypoints, so
  with the real detector this path is not reached.
- **`predict`.** It is the index of the nearest centre under the fitted distance, the
  lowest index on ties. So "every index is below the number of centres" is proved, not
  assumed. Training fits exactly `k = 50` centres, so its own encoding never raises an
  index error; it can fail only with `NoSamples`.

## Model

| member | source | states |
|---|---|---|
| `Descriptors.Accepted` | modulos/descritores/sift.py:53 | The keep test: the detector returned a matrix and its width is 128. It has no contract of its own; what it decides is stated by `Descriptors.SurvivorIndices` and `Descriptors.ExtractPrefixFollowsSurvivors`. |
| `Descriptors.PairCount` | modulos/descritores/sift.py:39 | `zip` processes as many pairs as the shorter input: the count is at most each length and equals one of them. |
| `Descriptors.ExtractPrefix` | modulos/descritores/sift.py:39-56 | After any number of pairs, the kept matrices and kept labels have equal length, no more than the pairs seen, and every kept matrix is 128 wide. |
| `Descriptors.ExtractLocalDescriptors` | modulos/descritores/sift.py:14-59 | The two returned arrays have equal length, at most `min(|imagens|, |rotulos|)`. Every kept descriptor matrix is 128 wide and every descriptor in it has 128 components. |
| `Descriptors.SurvivorIndices` | modulos/descritores/sift.py:53-56 | Reference definition of which images survive: exactly the positions whose detector output is present and 128 wide, strictly increasing. |
| `Descriptors.ExtractPrefixFollowsSurvivors` | modulos/descritores/sift.py:39-56 | Output `k` is the label and the detector matrix of the `k`-th surviving image. There are as many outputs as survivors, so dropped images are removed and not replaced, and order is kept. |
| `Descriptors.ExtractionFollowsSurvivors` | modulos/descritores/sift.py:14-59 | The same alignment for the whole extraction over `zip(imagens, rotulos)`. |
| `Descriptors.AllAcceptedKeepsEveryLabel` | modulos/descritores/sift.py:39-56 | When every paired image is accepted, the labels come back unchanged and matrix `i` is image `i`'s detector output. |
| `Vocabulary.NearestAmong` | modulos/descritores/sift.py:117 | The chosen centre is among the first `n`. No centre is nearer, and every lower index is strictly farther, which makes ties go to the lowest index. |
| `Vocabulary.Predict` | modulos/descritores/sift.py:117 | `predict` returns a valid centre index whose centre is at least as near as every other. |
| `Vocabulary.Pool` | modulos/descritores/sift.py:89 | `np.vstack` holds the sum of the per-image row counts, and contains exactly the descriptors of the images. |
| `Vocabulary.PoolSnoc` | modulos/descritores/sift.py:89 | `np.vstack` keeps image order: adding an image appends its descriptors after all earlier ones, and adds its row count to the total. |
| `Vocabulary.TrainKMeans` | modulos/descritores/sift.py:62-93 | Fitting succeeds iff there is at least one descriptor matrix and at least 50 pooled descriptors. An empty list fails with `EmptyDescriptorList`, as `vstack` does; otherwise a failure is `TooFewSamples` with the pooled count and 50. On success `k == 50`, there are `k` centres each fitted on the pool, the model assigns under the given distance, and every prediction is below `k`. |
| `Histogram.Tally` | modulos/descritores/sift.py:116-124 | The count loop succeeds iff every index is below `n_grupos`. Entry `j` is the number of occurrences of `j`, and the length is `n_grupos`. On failure the error names the first out-of-range index. |
| `Histogram.TallySum` | modulos/descritores/sift.py:118-124 | Each descriptor adds exactly one count, so a histogram's entries sum to the number of indices. |
| `Histogram.TallyOrderIndependent` | modulos/descritores/sift.py:118-124 | Reordering the predicted indices changes neither success nor the histogram. |
| `Histogram.Predictions` | modulos/descritores/sift.py:117 | One cluster index per descriptor row, in row order, each the row's `predict` and below the number of centres. |
| `Histogram.EncodeImage` | modulos/descritores/sift.py:116-125 | One image's histogram exists iff the image has a descriptor and every descriptor is predicted below `n_grupos`. A matrix with no rows fails with `NoSamples`, as `predict` raises, and only such a matrix fails that way. Any other failure names the first descriptor's out-of-range cluster index. With at most `n_grupos` centres, encoding fails only on such a matrix. Entry `j` counts the descriptors predicted into cluster `j`. |
| `Histogram.EncodeImageSum` | modulos/descritores/sift.py:116-124 | An image's histogram sums to its number of descriptors. |
| `Histogram.EncodeAll` | modulos/descritores/sift.py:96-128 | One histogram per matrix, in order, each equal to that image's histogram. Encoding fails iff some image fails, and then with the error of the first failing image. |
| `Histogram.EncodeAllSucceeds` | modulos/descritores/sift.py:111-125 | The batch encodes iff every image has a descriptor and every descriptor of every image is predicted below `n_grupos`. |
| `Histogram.EncodeAllWithinVocabulary` | modulos/descritores/sift.py:111-125 | With no more centres than `n_grupos`, there is never an index error. The batch fails iff some image has no descriptor, and then with `NoSamples`. Otherwise every histogram has `n_grupos` entries. |
| `Histogram.EncodeAllCounts` | modulos/descritores/sift.py:96-128 | Row `i`, entry `j` of the feature matrix counts image `i`'s descriptors predicted into cluster `j`. Each row has `n_grupos` entries and sums to the image's descriptor count. |
| `Pipeline.Train` | modulos/descritores/sift.py:131-152 | Training succeeds iff the kept images hold at least 50 descriptors in total and every kept image has at least one. It fails in the fit iff there are fewer than 50, and then with the fit's own error: `EmptyDescriptorList` when no image was kept, `TooFewSamples` otherwise. Any other failure is `NoSamples` from encoding. On success it returns `k == 50`, with 50 centres that are the fit on the pooled extracted descriptors, under the given distance. It returns the extracted labels, and the extracted matrices' histograms, one per label, each of length 50. |
| `Pipeline.Test` | modulos/descritores/sift.py:155-173 | The test path fits nothing: it encodes with the given model and `n_grupos`. It fails only in encoding, and then with the error of the batch encoding: the first image's out-of-range index or its `NoSamples`. It succeeds iff every kept image has a descriptor and every kept descriptor is predicted below `n_grupos`. It returns the extracted labels and as many histograms as labels. |
| `Pipeline.TrainRows` | modulos/descritores/sift.py:131-152 | Whenever training succeeds, the vocabulary is the fit on the pooled extracted descriptors under the given distance. Training row `i` belongs to the `i`-th surviving image and carries its original label. Its entries count that image's descriptors per cluster and sum to its descriptor count. |
| `Pipeline.TestRows` | modulos/descritores/sift.py:155-173 | Whenever the test path succeeds, test row `i` belongs to the `i`-th surviving image and carries its original label. It has `n_grupos` entries summing to its descriptor count. |
| `Pipeline.TrainThenTest` | modulos/descritores/sift.py:131-173 | Whenever training succeeds, the model and `k` it returns encode any test images without an index error. The test path then succeeds iff every kept test image has a descriptor, and otherwise fails with `NoSamples`. Its rows have length `k`. |
| `Pipeline.RetestReproducesTraining` | modulos/descritores/sift.py:131-173 | Whenever training succeeds, running the test path on the training images with the trained model and `k` reproduces the training histograms and labels. |
| `ZeroRows.RepairRow` | modulos/classificadores/mlp.py:35-39 | An all-zero row becomes 1 in column 0 and 0 elsewhere. Any other row is returned unchanged. |
| `ZeroRows.AdjustZeroSamples` | modulos/classificadores/mlp.py:27-41 | Succeeds iff the array has a column 0, with the same shape. All-zero rows get 1 in column 0 and stay 0 elsewhere. Other rows are unchanged, and no column other than 0 changes. |
| `ZeroRows.RepairedHasNoZeroRow` | modulos/classificadores/mlp.py:34-39 | After the repair no row is all zero. |
| `ZeroRows.AdjustIdempotent` | modulos/classificadores/mlp.py:27-41 | Repairing twice gives the same array as repairing once. |
| `Matrices.FlattenLength` | modulos/descritores/glcm.py:79 | `flatten()` keeps every cell: rows times columns values. |
| `Matrices.FlattenRowMajor` | modulos/descritores/glcm.py:79 | `flatten()` is row-major: cell `(i, j)` is at `i * width + j`. |
| `Glcm.Quantize` | modulos/descritores/glcm.py:59-60 | The level is below 32 (the `levels` of the co-occurrence call) and is `floor(v / 8)`: `8q <= v < 8q + 8`. |
| `Glcm.QuantizeMonotone` | modulos/descritores/glcm.py:60 | Quantisation preserves the order of intensities. |
| `Glcm.QuantizeOnto` | modulos/descritores/glcm.py:60 | Each level `q` is produced by exactly the intensities `8q` to `8q + 7`. |
| `Glcm.QuantizeImage` | modulos/descritores/glcm.py:60 | The quantised image has the input's shape, and every pixel is the level of the input pixel. |
| `Glcm.ImageFeatures` | modulos/descritores/glcm.py:74-79 | Every feature of an image comes from the values of some property, and every such value is a feature. The exact layout is stated by `Glcm.ImageFeaturesLength` and `Glcm.ImageFeaturesCell`. |
| `Glcm.ImageFeaturesLength` | modulos/descritores/glcm.py:74-79 | When every property yields `cells` values, an image's feature vector has `|propriedades| * cells` entries. |
| `Glcm.ImageFeaturesCell` | modulos/descritores/glcm.py:74-79 | Property `p` occupies the `p`-th run of `cells` entries, starting at `p * cells`. That run is its value matrix flattened, in property order. |
| `Glcm.FeatureRows` | modulos/descritores/glcm.py:51-83 | The per-image loop: one feature vector per image, in image order, each computed from that image quantised to 32 levels. |
| `Glcm.Stack` | modulos/descritores/glcm.py:86-90 | The vectors form a 2-D array iff there is at least one and all have the same length. The array's rows are the vectors. |
| `Glcm.PcaComponents` | modulos/descritores/glcm.py:91 | The component count is at most 50, the samples and the features, and equals one of them: their minimum. |
| `Glcm.Reduce` | modulos/descritores/glcm.py:93-103 | PCA is applied, with the computed component count, exactly when there are at least two samples and two features. Otherwise the stacked array is returned unchanged. |
| `Glcm.ExtractGlcm` | modulos/descritores/glcm.py:47-103 | Extraction succeeds iff there is an image and all feature vectors have equal length. Below two images or two features the stacked vectors are returned as they are. Otherwise it returns their PCA with `min(50, n_samples, n_features)` components. |
| `Glcm.ExtractGlcmOnUniformShapes` | modulos/descritores/glcm.py:74-91 | When every property of every image yields the same number of values, extraction of a non-empty list succeeds, and every vector has `|propriedades| * cells` features. |

## Left out

- The halving resize, gray conversion, median blur and SIFT detection
  (`modulos/descritores/sift.py:29-50`) are one opaque detector function of OpenCV calls.
- The GLCM path's 256x256 resize and gray conversion (`modulos/descritores/glcm.py:41`,
  `53-55`) are not modelled: `Glcm.ExtractGlcm` takes the gray images they produce.
- The numerics of MiniBatchKMeans are left out: mini-batches, `n_init`, seed 42 and
  convergence. The fit is an opaque function giving each of the 50 centres from the
  pooled descriptors.
- `Vocabulary.Predict`: uses an abstract distance. The library's squared Euclidean
  distance and floating-point arithmetic are not modelled.
- Histograms are counts (`nat`). The source stores them as floats in an object array,
  whose values are the same counts.
- `graycomatrix`/`graycoprops` and PCA's `fit_transform` are opaque functions. Only the
  shapes and the branch around them are modelled.
- `Glcm.Quantize`: the `astype(np.uint8)` truncation is modelled as the floor of an
  exact real division. For intensities 0 to 255 the two agree.
- The unused `niveis` parameter of `extrair_glcm` has no counterpart.
- The inputs are never modified. This holds for every function here, since all values
  are immutable, so it is not a separate statement. `np.copy` in
  `ajustar_amostras_zero` is therefore implicit.
- Progress bars, timing and prints have no functional effect and are left out.
- HOG, LBP and gray histograms (`hog.py`, `lbp.py`, `histograma.py`) are left out as
  library transforms with floating-point normalisation.
- The classifier wrappers (`knn.py`, `svm.py`, `random_forest.py`, the train and predict
  functions of `mlp.py`) are left out as thin library calls.
- Metrics, label encoders and data loading (`metricas.py`, `rotulos.py`, `dados.py`)
  are left out as plotting, library encoders and file I/O.

=== FILE: descriptors.dfy ===
/** Local descriptor extraction with image/label alignment
    (`extrair_descritores_sift_locais` in modulos/descritores/sift.py). */
module Descriptors {
  import opened Wrappers
  import opened Matrices

  /** Every SIFT descriptor has 128 components. */
  const DescriptorWidth: nat := 128

  /** One local descriptor: one row of a descriptor matrix. */
  type Descriptor = seq<real>

  /** What the detector reports for one image: `None`, or a keypoints-by-width matrix.
      The detector stands for the whole per-image chain of `extrair_descritores_sift_locais` (halving
      resize, gray conversion, median blur, `detectAndCompute`), which is opaque here. */
  type Detector<-I> = I -> Option<Matrix<real>>

  /** The validity test applied to each detector output: present and 128 wide. */
  predicate Accepted(found: Option<Matrix<real>>)
  {
    found.Some? && found.value.width == DescriptorWidth
  }

  /** The descriptor matrices of the kept images and their labels, position by position. */
  datatype Extraction<L> = Extraction(sets: seq<Matrix<real>>, labels: seq<L>)

  /** The extraction loop after its first `n` (image, label) pairs. */
  function ExtractPrefix<I, L>(detect: Detector<I>, images: seq<I>, labels: seq<L>, n: nat): (r: Extraction<L>)
    requires n <= |images| && n <= |labels|
    ensures |r.sets| == |r.labels| <= n
    ensures forall k :: 0 <= k < |r.sets| ==> r.sets[k].width == DescriptorWidth
  {
    if n == 0 then Extraction([], [])
    else
      var before := ExtractPrefix(detect, images, labels, n - 1);
      var found := detect(images[n - 1]);
      if Accepted(found) then Extraction(before.sets + [found.value], before.labels + [labels[n - 1]])
      else before
  }

  /** The number of pairs `zip(imagens, rotulos)` produces. */
  function PairCount<I, L>(images: seq<I>, labels: seq<L>): (n: nat)
    ensures n <= |images| && n <= |labels|
    ensures n == |images| || n == |labels|
  {
    if |images| <= |labels| then |images| else |labels|
  }

  /** `extrair_descritores_sift_locais`: detect, keep the accepted images and
      their labels in lock-step, drop the rest. */
  function ExtractLocalDescriptors<I, L>(detect: Detector<I>, images: seq<I>, labels: seq<L>): (r: Extraction<L>)
    ensures |r.sets| == |r.labels|
    ensures |r.labels| <= |images| && |r.labels| <= |labels|
    ensures forall k :: 0 <= k < |r.sets| ==> r.sets[k].width == DescriptorWidth
    ensures forall k, d :: 0 <= k < |r.sets| && d in r.sets[k].rows ==> |d| == DescriptorWidth
  {
    var r := ExtractPrefix(detect, images, labels, PairCount(images, labels));
    assert forall k, d :: 0 <= k < |r.sets| && d in r.sets[k].rows ==> |d| == r.sets[k].width;
    r
  }

  /** Reference definition: the positions among the first `n` whose detector output is
      accepted, in increasing order. */
  function SurvivorIndices<I>(detect: Detector<I>, images: seq<I>, n: nat): (r: seq<nat>)
    requires n <= |images|
    ensures forall k :: 0 <= k < |r| ==> r[k] < n && Accepted(detect(images[r[k]]))
    ensures forall k, l :: 0 <= k < l < |r| ==> r[k] < r[l]
    ensures forall i :: 0 <= i < n && Accepted(detect(images[i])) ==> i in r
  {
    if n == 0 then []
    else SurvivorIndices(detect, images, n - 1) + (if Accepted(detect(images[n - 1])) then [n - 1] else [])
  }

  /** Alignment: output `k` is the descriptor matrix and the label of the `k`-th accepted
      image; nothing else is kept and nothing is put in place of a dropped image. */
  lemma {:induction false} ExtractPrefixFollowsSurvivors<I, L>(detect: Detector<I>, images: seq<I>, labels: seq<L>, n: nat)
    requires n <= |images| && n <= |labels|
    ensures |ExtractPrefix(detect, images, labels, n).labels| == |SurvivorIndices(detect, images, n)|
    ensures forall k :: 0 <= k < |SurvivorIndices(detect, images, n)| ==>
              && ExtractPrefix(detect, images, labels, n).labels[k] == labels[SurvivorIndices(detect, images, n)[k]]
              && detect(images[SurvivorIndices(detect, images, n)[k]]) == Some(ExtractPrefix(detect, images, labels, n).sets[k])
  {
    if n > 0 {
      ExtractPrefixFollowsSurvivors(detect, images, labels, n - 1);
    }
  }

  /** The same alignment for the whole extraction. */
  lemma ExtractionFollowsSurvivors<I, L>(detect: Detector<I>, images: seq<I>, labels: seq<L>)
    ensures var r := ExtractLocalDescriptors(detect, images, labels);
            var idx := SurvivorIndices(detect, images, PairCount(images, labels));
            && |r.labels| == |idx|
            && forall k :: 0 <= k < |idx| ==> r.labels[k] == labels[idx[k]] && detect(images[idx[k]]) == Some(r.sets[k])
  {
    ExtractPrefixFollowsSurvivors(detect, images, labels, PairCount(images, labels));
  }

  /** When every paired image is accepted, the labels come back unchanged (up to the
      shorter input) and there is one descriptor matrix per image. */
  lemma {:induction false} AllAcceptedKeepsEveryLabel<I, L>(detect: Detector<I>, images: seq<I>, labels: seq<L>, n: nat)
    requires n <= |images| && n <= |labels|
    requires forall i :: 0 <= i < n ==> Accepted(detect(images[i]))
    ensures ExtractPrefix(detect, images, labels, n).labels == labels[..n]
    ensures forall i :: 0 <= i < n ==> detect(images[i]) == Some(ExtractPrefix(detect, images, labels, n).sets[i])
  {
    if n > 0 {
      AllAcceptedKeepsEveryLabel(detect, images, labels, n - 1);
      assert labels[..n] == labels[..n - 1] + [labels[n - 1]];
    }
  }
}

=== FILE: glcm.dfy ===
/** Gray-level co-occurrence features (`extrair_glcm` in modulos/descritores/glcm.py):
    quantisation to 32 levels, per-image feature layout, and the choice of whether and
    how far to reduce the stacked features with PCA. */
module Glcm {
  import opened Wrappers
  import opened Matrices
  import Seqs

  /** An 8-bit gray intensity. */
  type Byte = x: int | 0 <= x < 256

  /** A gray image: rows of intensities (already resized to 256x256 and converted to gray). */
  type GrayImage = seq<seq<Byte>>

  /** `niveis_reduzidos = 32`. */
  const ReducedLevels: nat := 32

  /** `(imagem / (256 / niveis_reduzidos)).astype(np.uint8)` for one pixel: a float division
      followed by a truncating cast, which is the floor for these non-negative values. */
  function Quantize(v: Byte): (q: nat)
    ensures q < ReducedLevels
    ensures q * 8 <= v < q * 8 + 8
  {
    var x := (v as real) / (256.0 / ReducedLevels as real);
    assert x >= 0.0;
    x.Floor
  }

  /** Quantisation preserves the order of intensities. */
  lemma QuantizeMonotone(v1: Byte, v2: Byte)
    requires v1 <= v2
    ensures Quantize(v1) <= Quantize(v2)
  {
  }

  /** Every level from 0 to 31 is reached, by the intensities `8q` to `8q + 7`. */
  lemma QuantizeOnto(q: nat, v: Byte)
    requires q * 8 <= v < q * 8 + 8
    ensures Quantize(v) == q
  {
  }

  /** The image at 32 gray levels, pixel by pixel. */
  function QuantizeImage(img: GrayImage): (out: seq<seq<nat>>)
    ensures |out| == |img|
    ensures forall i :: 0 <= i < |img| ==> |out[i]| == |img[i]|
    ensures forall i, j :: 0 <= i < |img| && 0 <= j < |img[i]| ==>
              out[i][j] < ReducedLevels && out[i][j] * 8 <= img[i][j] < out[i][j] * 8 + 8
  {
    seq(|img|, i requires 0 <= i < |img| =>
      seq(|img[i]|, j requires 0 <= j < |img[i]| => Quantize(img[i][j])))
  }

  /** A texture property name (`'contrast'`, `'energy'`, ...). */
  type Property = string

  /** The opaque `graycoprops(graycomatrix(q, ..., levels=32), p)`: a distances-by-angles
      matrix of values for the quantised image `q` and property `p`. */
  type CoProps = (seq<seq<nat>>, Property) -> Matrix<real>

  /** The value matrix of each property, flattened row by row, in property order. */
  function PropertyBlocks(coprops: CoProps, quantized: seq<seq<nat>>, properties: seq<Property>): (blocks: seq<seq<real>>)
    ensures |blocks| == |properties|
    ensures forall p :: 0 <= p < |properties| ==> blocks[p] == Flatten(coprops(quantized, properties[p]))
  {
    seq(|properties|, p requires 0 <= p < |properties| => Flatten(coprops(quantized, properties[p])))
  }

  /** The feature vector of one quantised image: for each property in order, its value
      matrix flattened and appended (`caracteristicas.extend(...)`). Every feature comes
      from some property's values, and every such value is a feature; the exact layout is
      `ImageFeaturesLength` and `ImageFeaturesCell`. */
  function ImageFeatures(coprops: CoProps, quantized: seq<seq<nat>>, properties: seq<Property>): (features: seq<real>)
    ensures forall x :: x in features <==> exists p :: 0 <= p < |properties| && x in Flatten(coprops(quantized, properties[p]))
  {
    var blocks := PropertyBlocks(coprops, quantized, properties);
    forall x
      ensures x in Seqs.Concat(blocks) <==> exists p :: 0 <= p < |properties| && x in Flatten(coprops(quantized, properties[p]))
    {
      Seqs.ConcatMembership(blocks, x);
    }
    Seqs.Concat(blocks)
  }

  /** When every property yields a matrix of `cells` values, the vector has
      `|properties| * cells` entries. */
  lemma ImageFeaturesLength(coprops: CoProps, quantized: seq<seq<nat>>, properties: seq<Property>, cells: nat)
    requires forall p :: 0 <= p < |properties| ==> |Flatten(coprops(quantized, properties[p]))| == cells
    ensures |ImageFeatures(coprops, quantized, properties)| == |properties| * cells
  {
    Seqs.ConcatLengthUniform(PropertyBlocks(coprops, quantized, properties), cells);
  }

  /** Feature layout: when every property yields a matrix of `cells` values, property `p`
      occupies the `p`-th run of `cells` entries, which is its value matrix flattened row
      by row (see `FlattenRowMajor`). */
  lemma ImageFeaturesCell(coprops: CoProps, quantized: seq<seq<nat>>, properties: seq<Property>, cells: nat, p: nat, k: nat)
    requires forall p :: 0 <= p < |properties| ==> |Flatten(coprops(quantized, properties[p]))| == cells
    requires p < |properties| && k < cells
    ensures var at := Seqs.Offset(p, cells, k);
            at < |ImageFeatures(coprops, quantized, properties)|
            && ImageFeatures(coprops, quantized, properties)[at] == Flatten(coprops(quantized, properties[p]))[k]
  {
    var blocks := PropertyBlocks(coprops, quantized, properties);
    assert forall q :: 0 <= q < |blocks| ==> |blocks[q]| == cells;
    Seqs.ConcatCell(blocks, cells, p, k);
  }

  /** `n_samples, n_features = caracteristicas_array.shape` fails unless the stacked
      features form a 2-D array. */
  datatype GlcmError = NotTwoDimensional

  /** `np.array(lista_caracteristicas_glcm)` followed by the shape unpacking: a matrix when
      there is at least one vector and all have the same length. */
  function Stack(vectors: seq<seq<real>>): (r: Result<Matrix<real>, GlcmError>)
    ensures r.Success? <==> |vectors| > 0 && forall i :: 0 <= i < |vectors| ==> |vectors[i]| == |vectors[0]|
    ensures r.Success? ==> r.value.rows == vectors
  {
    if |vectors| == 0 then Failure(NotTwoDimensional)
    else if forall i :: 0 <= i < |vectors| ==> |vectors[i]| == |vectors[0]| then Success(Grid(|vectors[0]|, vectors))
    else Failure(NotTwoDimensional)
  }

  /** At most 50 principal components are kept. */
  const MaxComponents: nat := 50

  /** `n_components_pca = min(50, n_samples, n_features)`. */
  function PcaComponents(samples: nat, features: nat): (n: nat)
    ensures n <= MaxComponents && n <= samples && n <= features
    ensures n == MaxComponents || n == samples || n == features
  {
    if MaxComponents <= samples && MaxComponents <= features then MaxComponents
    else if samples <= features then samples
    else features
  }

  /** The opaque `PCA(n_components=n).fit_transform(x)`. */
  type Pca = (Matrix<real>, nat) -> Matrix<real>

  /** The apply/skip branch: PCA runs exactly when there are at least two samples and at
      least two features; otherwise the stacked features come back unchanged. */
  function Reduce(pca: Pca, x: Matrix<real>): (r: Matrix<real>)
    ensures |x.rows| >= 2 && x.width >= 2 ==> r == pca(x, PcaComponents(|x.rows|, x.width))
    ensures |x.rows| < 2 || x.width < 2 ==> r == x
  {
    var n := PcaComponents(|x.rows|, x.width);
    if n > 1 then pca(x, n) else x
  }

  /** The feature vector of every image, in order. */
  function FeatureRows(coprops: CoProps, properties: seq<Property>, images: seq<GrayImage>): (rows: seq<seq<real>>)
    ensures |rows| == |images|
    ensures forall i :: 0 <= i < |images| ==> rows[i] == ImageFeatures(coprops, QuantizeImage(images[i]), properties)
  {
    seq(|images|, i requires 0 <= i < |images| => ImageFeatures(coprops, QuantizeImage(images[i]), properties))
  }

  /** `extrair_glcm` after resizing and gray conversion: quantise each image, compute its
      feature vector, stack, and reduce with PCA when there is room to. */
  function ExtractGlcm(coprops: CoProps, properties: seq<Property>, pca: Pca, images: seq<GrayImage>): (r: Result<Matrix<real>, GlcmError>)
    ensures var rows := FeatureRows(coprops, properties, images);
            r.Success? <==> |images| > 0 && forall i :: 0 <= i < |images| ==> |rows[i]| == |rows[0]|
    ensures var rows := FeatureRows(coprops, properties, images);
            r.Success? && (|images| < 2 || |rows[0]| < 2) ==> r.value.rows == rows
    ensures var rows := FeatureRows(coprops, properties, images);
            r.Success? && |images| >= 2 && |rows[0]| >= 2 ==>
              r.value == pca(Grid(|rows[0]|, rows), PcaComponents(|images|, |rows[0]|))
  {
    match Stack(FeatureRows(coprops, properties, images))
    case Failure(e) => Failure(e)
    case Success(x) => Success(Reduce(pca, x))
  }

  /** When every property of every image yields `cells` values, stacking never fails on a
      non-empty image list and every row has `|properties| * cells` features. */
  lemma ExtractGlcmOnUniformShapes(coprops: CoProps, properties: seq<Property>, pca: Pca, images: seq<GrayImage>, cells: nat)
    requires |images| > 0
    requires forall i, p :: 0 <= i < |images| && 0 <= p < |properties| ==>
               |Flatten(coprops(QuantizeImage(images[i]), properties[p]))| == cells
    ensures ExtractGlcm(coprops, properties, pca, images).Success?
    ensures forall i :: 0 <= i < |images| ==> |FeatureRows(coprops, properties, images)[i]| == |properties| * cells
  {
    forall i | 0 <= i < |images|
      ensures |FeatureRows(coprops, properties, images)[i]| == |properties| * cells
    {
      ImageFeaturesLength(coprops, QuantizeImage(images[i]), properties, cells);
    }
  }
}

=== FILE: histogram.dfy ===
/** Bag-of-visual-words encoding (`gerar_histogramas_bovw` in modulos/descritores/sift.py). */
module Histogram {
  import opened Wrappers
  import opened Matrices
  import opened Vocabulary

  /** Why encoding an image raises: numpy's IndexError when a predicted cluster index is
      not a valid histogram position, or scikit-learn's ValueError when `predict` is given
      a descriptor matrix with no rows. */
  datatype EncodeError = ClusterOutOfRange(index: nat, size: nat) | NoSamples

  /** The sum of a histogram's entries. */
  function Sum(h: seq<nat>): nat
  {
    if |h| == 0 then 0 else Sum(h[..|h| - 1]) + h[|h| - 1]
  }

  /** One image's histogram loop: start from `np.zeros(n_grupos)` and increment the entry
      of each predicted index in turn; the first index outside the histogram raises. */
  function Tally(idx: seq<nat>, k: nat): (r: Result<seq<nat>, EncodeError>)
    ensures r.Success? <==> forall d :: 0 <= d < |idx| ==> idx[d] < k
    ensures r.Success? ==> |r.value| == k
    ensures r.Success? ==> forall j :: 0 <= j < k ==> r.value[j] == multiset(idx)[j]
    ensures r.Failure? ==> exists d :: 0 <= d < |idx| && r.error == ClusterOutOfRange(idx[d], k) && FirstOutOfRange(idx, k, d)
  {
    if |idx| == 0 then Success(seq(k, _ => 0))
    else
      var n := |idx| - 1;
      assert idx == idx[..n] + [idx[n]];
      match Tally(idx[..n], k)
      case Failure(e) => Failure(e)
      case Success(h) =>
        if idx[n] < k then Success(h[idx[n] := h[idx[n]] + 1])
        else Failure(ClusterOutOfRange(idx[n], k))
  }

  /** Position `d` holds the first index that does not fit a histogram of size `k`. */
  predicate FirstOutOfRange(idx: seq<nat>, k: nat, d: nat)
  {
    d < |idx| && idx[d] >= k && forall e :: 0 <= e < d ==> idx[e] < k
  }

  lemma SumIncrement(h: seq<nat>, i: nat)
    requires i < |h|
    ensures Sum(h[i := h[i] + 1]) == Sum(h) + 1
  {
    var n := |h| - 1;
    if i < n {
      assert h[i := h[i] + 1][..n] == h[..n][i := h[i] + 1];
      SumIncrement(h[..n], i);
    } else {
      assert h[i := h[i] + 1][..n] == h[..n];
    }
  }

  lemma {:induction false} SumZeros(k: nat)
    ensures Sum(seq(k, _ => 0)) == 0
  {
    if k > 0 {
      assert seq(k, _ => 0)[..k - 1] == seq(k - 1, _ => 0);
      SumZeros(k - 1);
    }
  }

  /** Every descriptor adds exactly one count: a histogram sums to its descriptor count. */
  lemma {:induction false} TallySum(idx: seq<nat>, k: nat)
    requires Tally(idx, k).Success?
    ensures Sum(Tally(idx, k).value) == |idx|
  {
    if |idx| == 0 {
      SumZeros(k);
    } else {
      var n := |idx| - 1;
      TallySum(idx[..n], k);
      SumIncrement(Tally(idx[..n], k).value, idx[n]);
    }
  }

  /** Accumulation is commutative: reordering the descriptors' indices neither changes
      whether encoding succeeds nor the histogram it produces. */
  lemma TallyOrderIndependent(a: seq<nat>, b: seq<nat>, k: nat)
    requires multiset(a) == multiset(b)
    ensures Tally(a, k).Success? <==> Tally(b, k).Success?
    ensures Tally(a, k).Success? ==> Tally(a, k).value == Tally(b, k).value
  {
    forall d | 0 <= d < |a|
      ensures a[d] in b
    {
      assert a[d] in multiset(a);
    }
    forall d | 0 <= d < |b|
      ensures b[d] in a
    {
      assert b[d] in multiset(b);
    }
  }

  /** `modelo_kmeans.predict(descritores)`: the cluster index of every row, in row order. */
  function Predictions(v: Vocabulary, m: Matrix<real>): (idx: seq<nat>)
    ensures |idx| == |m.rows|
    ensures forall i :: 0 <= i < |m.rows| ==> idx[i] == Predict(v, m.rows[i]) && idx[i] < |v.centers|
  {
    seq(|m.rows|, i requires 0 <= i < |m.rows| => Predict(v, m.rows[i]))
  }

  /** The image has at least one descriptor, and every descriptor is assigned a cluster
      below `k`. */
  predicate FitsHistogram(v: Vocabulary, k: nat, m: Matrix<real>)
  {
    |m.rows| > 0 && forall i :: 0 <= i < |m.rows| ==> Predict(v, m.rows[i]) < k
  }

  /** The histogram of one image under a vocabulary, with `n_grupos` positions:
      `predict` on the descriptor matrix, then the count loop. */
  function EncodeImage(v: Vocabulary, k: nat, m: Matrix<real>): (r: Result<seq<nat>, EncodeError>)
    ensures r.Success? <==> FitsHistogram(v, k, m)
    ensures r == Failure(NoSamples) <==> |m.rows| == 0
    ensures r.Failure? && |m.rows| > 0 ==>
              exists d: nat :: FirstOutOfRange(Predictions(v, m), k, d) && r.error == ClusterOutOfRange(Predictions(v, m)[d], k)
    ensures |v.centers| <= k ==> (r.Success? <==> |m.rows| > 0)
    ensures r.Success? ==> |r.value| == k
    ensures r.Success? ==> forall j :: 0 <= j < k ==> r.value[j] == multiset(Predictions(v, m))[j]
  {
    if |m.rows| == 0 then Failure(NoSamples) else Tally(Predictions(v, m), k)
  }

  /** The image's histogram entries add up to its number of descriptors. */
  lemma EncodeImageSum(v: Vocabulary, k: nat, m: Matrix<real>)
    requires EncodeImage(v, k, m).Success?
    ensures Sum(EncodeImage(v, k, m).value) == |m.rows|
  {
    TallySum(Predictions(v, m), k);
  }

  /** `gerar_histogramas_bovw`: one histogram per descriptor matrix, in order; the first
      image that cannot be encoded (an out-of-range prediction, or no descriptors at all)
      stops the whole batch with its error. */
  function EncodeAll(v: Vocabulary, k: nat, sets: seq<Matrix<real>>): (r: Result<seq<seq<nat>>, EncodeError>)
    ensures r.Success? <==> forall i :: 0 <= i < |sets| ==> EncodeImage(v, k, sets[i]).Success?
    ensures r.Success? ==> |r.value| == |sets|
    ensures r.Success? ==> forall i :: 0 <= i < |sets| ==> EncodeImage(v, k, sets[i]) == Success(r.value[i])
    ensures r.Failure? ==> exists i :: 0 <= i < |sets| && EncodeImage(v, k, sets[i]) == Failure(r.error)
                                     && forall j :: 0 <= j < i ==> EncodeImage(v, k, sets[j]).Success?
  {
    MapUntilFailure(m => EncodeImage(v, k, m), sets)
  }

  /** Encoding the batch succeeds exactly when every image has a descriptor and every
      descriptor of every image is assigned a cluster below `n_grupos`. */
  lemma EncodeAllSucceeds(v: Vocabulary, k: nat, sets: seq<Matrix<real>>)
    ensures EncodeAll(v, k, sets).Success? <==> forall i :: 0 <= i < |sets| ==> FitsHistogram(v, k, sets[i])
  {
    assert forall i :: 0 <= i < |sets| ==> (EncodeImage(v, k, sets[i]).Success? <==> FitsHistogram(v, k, sets[i]));
  }

  /** A vocabulary with at most `n_grupos` centres never produces an out-of-range index:
      the batch then fails exactly when some image has no descriptor, with `NoSamples`,
      and otherwise every histogram has exactly `n_grupos` entries. */
  lemma EncodeAllWithinVocabulary(v: Vocabulary, k: nat, sets: seq<Matrix<real>>)
    requires |v.centers| <= k
    ensures EncodeAll(v, k, sets).Success? <==> forall i :: 0 <= i < |sets| ==> |sets[i].rows| > 0
    ensures EncodeAll(v, k, sets).Failure? ==> EncodeAll(v, k, sets).error == NoSamples
    ensures EncodeAll(v, k, sets).Success? ==> forall i :: 0 <= i < |sets| ==> |EncodeAll(v, k, sets).value[i]| == k
  {
    assert forall i :: 0 <= i < |sets| ==> (EncodeImage(v, k, sets[i]).Success? <==> |sets[i].rows| > 0);
  }

  /** Row `i` of the feature matrix counts, per cluster, the descriptors of image `i`
      predicted into that cluster, and sums to that image's descriptor count. */
  lemma EncodeAllCounts(v: Vocabulary, k: nat, sets: seq<Matrix<real>>)
    requires EncodeAll(v, k, sets).Success?
    ensures forall i, j :: 0 <= i < |sets| && 0 <= j < k ==>
              EncodeAll(v, k, sets).value[i][j] == multiset(Predictions(v, sets[i]))[j]
    ensures forall i :: 0 <= i < |sets| ==> |EncodeAll(v, k, sets).value[i]| == k
    ensures forall i :: 0 <= i < |sets| ==> Sum(EncodeAll(v, k, sets).value[i]) == |sets[i].rows|
  {
    forall i | 0 <= i < |sets|
      ensures Sum(EncodeAll(v, k, sets).value[i]) == |sets[i].rows|
    {
      EncodeImageSum(v, k, sets[i]);
    }
  }
}

=== FILE: matrices.dfy ===
/** Two-dimensional numpy arrays. */
module Matrices {
  import Seqs

  /** A row-major grid with a declared column count (numpy's `shape[1]`). */
  datatype Grid<T> = Grid(width: nat, rows: seq<seq<T>>)

  /** numpy's shape invariant: every row has exactly `width` entries. */
  predicate Rectangular<T>(g: Grid<T>)
  {
    forall i :: 0 <= i < |g.rows| ==> |g.rows[i]| == g.width
  }

  /** A 2-D array: `|rows|` is `shape[0]`, `width` is `shape[1]`. */
  type Matrix<T> = g: Grid<T> | Rectangular(g) witness Grid(0, [])

  /** numpy's `flatten()`: the rows laid end to end. */
  function Flatten<T>(m: Matrix<T>): seq<T>
  {
    Seqs.Concat(m.rows)
  }

  /** `flatten()` keeps every cell: `|rows| * width` values. */
  lemma FlattenLength<T>(m: Matrix<T>)
    ensures |Flatten(m)| == |m.rows| * m.width
  {
    Seqs.ConcatLengthUniform(m.rows, m.width);
  }

  /** `flatten()` is row-major: cell `(i, j)` lands at position `i * width + j`. */
  lemma FlattenRowMajor<T>(m: Matrix<T>, i: nat, j: nat)
    requires i < |m.rows| && j < m.width
    ensures Seqs.Offset(i, m.width, j) < |Flatten(m)| && Flatten(m)[Seqs.Offset(i, m.width, j)] == m.rows[i][j]
  {
    Seqs.ConcatCell(m.rows, m.width, i, j);
  }
}

=== FILE: pipeline.dfy ===
/** The training and test entry points (`extrair_sift_treinamento` and `extrair_sift_teste`
    in modulos/descritores/sift.py). */
module Pipeline {
  import opened Wrappers
  import opened Descriptors
  import opened Vocabulary
  import opened Histogram

  /** Why a pipeline run stops: the vocabulary could not be fitted, or encoding raised
      (a histogram index out of range, or an image with no descriptors). */
  datatype PipelineError = FitFailed(fit: FitError) | EncodeFailed(encode: EncodeError)

  /** Training output: histograms, fitted model, `n_grupos` and the surviving labels. */
  datatype TrainOutput<L> = TrainOutput(histograms: seq<seq<nat>>, vocabulary: Vocabulary, k: nat, labels: seq<L>)

  /** Test output: histograms and the surviving labels. */
  datatype TestOutput<L> = TestOutput(histograms: seq<seq<nat>>, labels: seq<L>)

  /** `extrair_sift_treinamento`: extract, fit the vocabulary on the extracted descriptors,
      encode them with it. Encoding with the freshly fitted 50 centres can raise only on a
      kept descriptor matrix with no rows. */
  function Train<I, L>(detect: Detector<I>, fitCenter: CenterFit, distance: (Descriptor, Descriptor) -> real,
                       images: seq<I>, labels: seq<L>): (r: Result<TrainOutput<L>, PipelineError>)
    ensures var sets := ExtractLocalDescriptors(detect, images, labels).sets;
            r.Success? <==> RowCount(sets) >= Clusters && forall i :: 0 <= i < |sets| ==> |sets[i].rows| > 0
    ensures r.Failure? && r.error.FitFailed? <==> RowCount(ExtractLocalDescriptors(detect, images, labels).sets) < Clusters
    ensures r.Failure? && r.error.FitFailed? ==>
              TrainKMeans(fitCenter, distance, ExtractLocalDescriptors(detect, images, labels).sets) == Failure(r.error.fit)
    ensures r.Failure? && !r.error.FitFailed? ==> r.error == EncodeFailed(NoSamples)
    ensures r.Success? ==> r.value.k == Clusters && |r.value.vocabulary.centers| == Clusters
    ensures r.Success? ==> r.value.vocabulary.distance == distance
    ensures r.Success? ==> forall j :: 0 <= j < Clusters ==>
              r.value.vocabulary.centers[j] == fitCenter(Pool(ExtractLocalDescriptors(detect, images, labels).sets), j)
    ensures r.Success? ==> r.value.labels == ExtractLocalDescriptors(detect, images, labels).labels
    ensures r.Success? ==> EncodeAll(r.value.vocabulary, r.value.k, ExtractLocalDescriptors(detect, images, labels).sets) == Success(r.value.histograms)
    ensures r.Success? ==> |r.value.histograms| == |r.value.labels|
    ensures r.Success? ==> forall i :: 0 <= i < |r.value.histograms| ==> |r.value.histograms[i]| == Clusters
  {
    var extracted := ExtractLocalDescriptors(detect, images, labels);
    match TrainKMeans(fitCenter, distance, extracted.sets)
    case Failure(e) => Failure(FitFailed(e))
    case Success(trained) =>
      EncodeAllWithinVocabulary(trained.vocabulary, trained.k, extracted.sets);
      match EncodeAll(trained.vocabulary, trained.k, extracted.sets)
      case Failure(e) => Failure(EncodeFailed(e))
      case Success(hs) => Success(TrainOutput(hs, trained.vocabulary, trained.k, extracted.labels))
  }

  /** `extrair_sift_teste`: extract, then encode with the given model and `n_grupos`.
      Nothing is fitted here: the vocabulary is an input and comes back out untouched. */
  function Test<I, L>(detect: Detector<I>, vocabulary: Vocabulary, k: nat,
                      images: seq<I>, labels: seq<L>): (r: Result<TestOutput<L>, PipelineError>)
    ensures r.Failure? ==> r.error.EncodeFailed?
    ensures r.Failure? ==> EncodeAll(vocabulary, k, ExtractLocalDescriptors(detect, images, labels).sets) == Failure(r.error.encode)
    ensures r.Success? <==> forall i :: 0 <= i < |ExtractLocalDescriptors(detect, images, labels).sets| ==>
                               FitsHistogram(vocabulary, k, ExtractLocalDescriptors(detect, images, labels).sets[i])
    ensures r.Success? ==> r.value.labels == ExtractLocalDescriptors(detect, images, labels).labels
    ensures r.Success? ==> EncodeAll(vocabulary, k, ExtractLocalDescriptors(detect, images, labels).sets) == Success(r.value.histograms)
    ensures r.Success? ==> |r.value.histograms| == |r.value.labels|
  {
    var extracted := ExtractLocalDescriptors(detect, images, labels);
    match EncodeAll(vocabulary, k, extracted.sets)
    case Failure(e) => Failure(EncodeFailed(e))
    case Success(hs) => Success(TestOutput(hs, extracted.labels))
  }

  /** Row `i` of the training matrix is the histogram of the `i`-th surviving image:
      entry `j` counts its descriptors assigned to cluster `j`, the entries sum to its
      descriptor count, and its label is the input label of that image. */
  lemma TrainRows<I, L>(detect: Detector<I>, fitCenter: CenterFit, distance: (Descriptor, Descriptor) -> real,
                        images: seq<I>, labels: seq<L>)
    ensures var r := Train(detect, fitCenter, distance, images, labels);
            var sets := ExtractLocalDescriptors(detect, images, labels).sets;
            var idx := SurvivorIndices(detect, images, PairCount(images, labels));
            r.Success? ==> var t := r.value;
            && t.vocabulary.distance == distance
            && (forall j :: 0 <= j < t.k ==> t.vocabulary.centers[j] == fitCenter(Pool(sets), j))
            && |t.histograms| == |idx|
            && (forall i :: 0 <= i < |idx| ==> t.labels[i] == labels[idx[i]] && detect(images[idx[i]]) == Some(sets[i]))
            && (forall i, j :: 0 <= i < |sets| && 0 <= j < t.k ==> t.histograms[i][j] == multiset(Predictions(t.vocabulary, sets[i]))[j])
            && (forall i :: 0 <= i < |sets| ==> Sum(t.histograms[i]) == |sets[i].rows|)
  {
    var r := Train(detect, fitCenter, distance, images, labels);
    if r.Success? {
      ExtractionFollowsSurvivors(detect, images, labels);
      EncodeAllCounts(r.value.vocabulary, r.value.k, ExtractLocalDescriptors(detect, images, labels).sets);
    }
  }

  /** Test-mode rows carry the same guarantees under any vocabulary that fits `n_grupos`. */
  lemma TestRows<I, L>(detect: Detector<I>, vocabulary: Vocabulary, k: nat, images: seq<I>, labels: seq<L>)
    ensures var r := Test(detect, vocabulary, k, images, labels);
            var sets := ExtractLocalDescriptors(detect, images, labels).sets;
            var idx := SurvivorIndices(detect, images, PairCount(images, labels));
            r.Success? ==> var t := r.value;
            && |t.histograms| == |idx|
            && (forall i :: 0 <= i < |idx| ==> t.labels[i] == labels[idx[i]] && detect(images[idx[i]]) == Some(sets[i]))
            && (forall i :: 0 <= i < |sets| ==> |t.histograms[i]| == k && Sum(t.histograms[i]) == |sets[i].rows|)
  {
    if Test(detect, vocabulary, k, images, labels).Success? {
      ExtractionFollowsSurvivors(detect, images, labels);
      EncodeAllCounts(vocabulary, k, ExtractLocalDescriptors(detect, images, labels).sets);
    }
  }

  /** Train/test consistency: the model and `n_grupos` returned by training encode any
      later image set without an index error. The test path then fails only when a kept
      test image has no descriptor, and every histogram has `n_grupos` entries. */
  lemma TrainThenTest<I, L, J, M>(detect: Detector<I>, fitCenter: CenterFit, distance: (Descriptor, Descriptor) -> real,
                                  images: seq<I>, labels: seq<L>,
                                  testDetect: Detector<J>, testImages: seq<J>, testLabels: seq<M>)
    ensures var r := Train(detect, fitCenter, distance, images, labels);
            var testSets := ExtractLocalDescriptors(testDetect, testImages, testLabels).sets;
            r.Success? ==>
              var tr := Test(testDetect, r.value.vocabulary, r.value.k, testImages, testLabels);
              && (tr.Success? <==> forall i :: 0 <= i < |testSets| ==> |testSets[i].rows| > 0)
              && (tr.Failure? ==> tr.error == EncodeFailed(NoSamples))
              && (tr.Success? ==> forall i :: 0 <= i < |tr.value.histograms| ==> |tr.value.histograms[i]| == r.value.k)
  {
    var r := Train(detect, fitCenter, distance, images, labels);
    if r.Success? {
      var testSets := ExtractLocalDescriptors(testDetect, testImages, testLabels).sets;
      EncodeAllWithinVocabulary(r.value.vocabulary, r.value.k, testSets);
    }
  }

  /** Re-encoding the training images in test mode with the trained model and `n_grupos`
      reproduces the training matrix and labels exactly. */
  lemma RetestReproducesTraining<I, L>(detect: Detector<I>, fitCenter: CenterFit, distance: (Descriptor, Descriptor) -> real,
                                       images: seq<I>, labels: seq<L>)
    ensures var r := Train(detect, fitCenter, distance, images, labels);
            r.Success? ==>
              Test(detect, r.value.vocabulary, r.value.k, images, labels) == Success(TestOutput(r.value.histograms, r.value.labels))
  {
  }
}

=== FILE: seqs.dfy ===
/** Concatenation of a sequence of sequences: numpy's `vstack` of row blocks,
    `flatten` of a 2-D array and `list.extend` in a loop are all this one operation. */
module Seqs {

  /** The sum of the lengths of the inner sequences. */
  function TotalLength<T>(ss: seq<seq<T>>): nat
  {
    if |ss| == 0 then 0 else TotalLength(ss[..|ss| - 1]) + |ss[|ss| - 1]|
  }

  /** The inner sequences laid end to end, in order. */
  function Concat<T>(ss: seq<seq<T>>): (r: seq<T>)
    ensures |r| == TotalLength(ss)
  {
    if |ss| == 0 then [] else Concat(ss[..|ss| - 1]) + ss[|ss| - 1]
  }

  /** An element is in the concatenation exactly when it is in one of the blocks. */
  lemma {:induction false} ConcatMembership<T>(ss: seq<seq<T>>, x: T)
    ensures x in Concat(ss) <==> exists k :: 0 <= k < |ss| && x in ss[k]
  {
    if |ss| > 0 {
      var n := |ss| - 1;
      var prefix := ss[..n];
      ConcatMembership(prefix, x);
      assert Concat(ss) == Concat(prefix) + ss[n];
      if x in Concat(prefix) {
        var k :| 0 <= k < |prefix| && x in prefix[k];
        assert x in ss[k];
      }
      if exists k :: 0 <= k < |ss| && x in ss[k] {
        var k :| 0 <= k < |ss| && x in ss[k];
        if k < n {
          assert x in prefix[k];
        }
      }
    }
  }

  lemma RowBeforeLast(i: nat, j: nat, n: nat, w: nat)
    requires i < n && j < w
    ensures i * w + j < n * w
  {
    assert (i + 1) * w <= n * w;
  }

  lemma NextMultiple(n: nat, w: nat)
    ensures (n + 1) * w == n * w + w
  {
  }

  /** When every block has length `w`, the concatenation has `|ss| * w` elements. */
  lemma {:induction false} ConcatLengthUniform<T>(ss: seq<seq<T>>, w: nat)
    requires forall k :: 0 <= k < |ss| ==> |ss[k]| == w
    ensures |Concat(ss)| == |ss| * w
  {
    if |ss| > 0 {
      var n := |ss| - 1;
      ConcatLengthUniform(ss[..n], w);
      NextMultiple(n, w);
    }
  }

  /** The position of element `j` of block `i` when every block has `w` elements. */
  function Offset(i: nat, w: nat, j: nat): nat
  {
    i * w + j
  }

  /** When every block has length `w`, element `j` of block `i` sits at `Offset(i, w, j)`. */
  lemma {:induction false} ConcatCell<T>(ss: seq<seq<T>>, w: nat, i: nat, j: nat)
    requires forall k :: 0 <= k < |ss| ==> |ss[k]| == w
    requires i < |ss| && j < w
    ensures Offset(i, w, j) < |Concat(ss)| && Concat(ss)[Offset(i, w, j)] == ss[i][j]
  {
    var n := |ss| - 1;
    var prefix := ss[..n];
    var head := Concat(prefix);
    assert Concat(ss) == head + ss[n];
    ConcatLengthUniform(prefix, w);
    if i < n {
      ConcatCell(prefix, w, i, j);
      RowBeforeLast(i, j, n, w);
    } else {
      assert i * w + j == |head| + j;
    }
  }
}

=== FILE: vocabulary.dfy ===
/** The visual vocabulary (`treinar_kmeans` in modulos/descritores/sift.py): the pool of
    all training descriptors, the fitted cluster centres, and nearest-centre assignment. */
module Vocabulary {
  import opened Wrappers
  import opened Matrices
  import Seqs
  import opened Descriptors

  /** `k = 50` clusters. */
  const Clusters: nat := 50

  /** A fitted MiniBatchKMeans: its cluster centres and the distance it assigns by. */
  datatype Model = Model(centers: seq<Descriptor>, distance: (Descriptor, Descriptor) -> real)

  /** A fitted model always has at least one centre. */
  type Vocabulary = m: Model | |m.centers| > 0 witness Model([[]], (a, b) => 0.0)

  /** The centre index among the first `n` that is nearest to `d`, the lowest index on ties. */
  function NearestAmong(v: Vocabulary, d: Descriptor, n: nat): (c: nat)
    requires 0 < n <= |v.centers|
    ensures c < n
    ensures forall j :: 0 <= j < n ==> v.distance(d, v.centers[c]) <= v.distance(d, v.centers[j])
    ensures forall j :: 0 <= j < c ==> v.distance(d, v.centers[c]) < v.distance(d, v.centers[j])
  {
    if n == 1 then 0
    else
      var best := NearestAmong(v, d, n - 1);
      if v.distance(d, v.centers[n - 1]) < v.distance(d, v.centers[best]) then n - 1 else best
  }

  /** `predict` for one descriptor: the cluster index of its nearest centre. */
  function Predict(v: Vocabulary, d: Descriptor): (c: nat)
    ensures c < |v.centers|
    ensures forall j :: 0 <= j < |v.centers| ==> v.distance(d, v.centers[c]) <= v.distance(d, v.centers[j])
  {
    NearestAmong(v, d, |v.centers|)
  }

  /** The rows of every matrix, matrix by matrix. */
  function RowBlocks(sets: seq<Matrix<real>>): (blocks: seq<seq<Descriptor>>)
    ensures |blocks| == |sets|
    ensures forall k :: 0 <= k < |sets| ==> blocks[k] == sets[k].rows
  {
    seq(|sets|, k requires 0 <= k < |sets| => sets[k].rows)
  }

  /** The number of descriptors over all images. */
  function RowCount(sets: seq<Matrix<real>>): nat
  {
    Seqs.TotalLength(RowBlocks(sets))
  }

  /** `np.vstack(lista_descritores_sift)`: every image's descriptors, image after image. */
  function Pool(sets: seq<Matrix<real>>): (pool: seq<Descriptor>)
    ensures |pool| == RowCount(sets)
    ensures forall d :: d in pool <==> exists k :: 0 <= k < |sets| && d in sets[k].rows
  {
    var pool := Seqs.Concat(RowBlocks(sets));
    forall d
      ensures d in pool <==> exists k :: 0 <= k < |sets| && d in sets[k].rows
    {
      Seqs.ConcatMembership(RowBlocks(sets), d);
    }
    pool
  }

  /** The pool keeps image order: one more image appends its descriptors after the others. */
  lemma PoolSnoc(sets: seq<Matrix<real>>, m: Matrix<real>)
    ensures Pool(sets + [m]) == Pool(sets) + m.rows
    ensures RowCount(sets + [m]) == RowCount(sets) + |m.rows|
  {
    var longer := sets + [m];
    assert RowBlocks(longer)[..|sets|] == RowBlocks(sets);
  }

  /** Why fitting can fail: `np.vstack` of an empty list raises, and k-means needs at
      least as many samples as clusters. */
  datatype FitError = EmptyDescriptorList | TooFewSamples(samples: nat, clusters: nat)

  /** The model and cluster count returned by the training step. */
  datatype Trained = Trained(vocabulary: Vocabulary, k: nat)

  /** The opaque mini-batch k-means fit (seed 42): centre `j` fitted on a pool. */
  type CenterFit = (seq<Descriptor>, nat) -> Descriptor

  /** `treinar_kmeans`: pool the descriptors, fit `k = 50` centres, return the model and `k`. */
  function TrainKMeans(fitCenter: CenterFit, distance: (Descriptor, Descriptor) -> real,
                       sets: seq<Matrix<real>>): (r: Result<Trained, FitError>)
    ensures r.Success? <==> |sets| > 0 && RowCount(sets) >= Clusters
    ensures |sets| == 0 ==> r == Failure(EmptyDescriptorList)
    ensures r.Failure? && |sets| > 0 ==> r.error == TooFewSamples(RowCount(sets), Clusters)
    ensures r.Success? ==> r.value.k == Clusters && |r.value.vocabulary.centers| == r.value.k
    ensures r.Success? ==> r.value.vocabulary.distance == distance
    ensures r.Success? ==> forall j :: 0 <= j < r.value.k ==> r.value.vocabulary.centers[j] == fitCenter(Pool(sets), j)
    ensures r.Success? ==> forall d :: Predict(r.value.vocabulary, d) < r.value.k
  {
    if |sets| == 0 then Failure(EmptyDescriptorList)
    else
      var pool := Pool(sets);
      if |pool| < Clusters then Failure(TooFewSamples(|pool|, Clusters))
      else Success(Trained(Model(seq(Clusters, j requires 0 <= j < Clusters => fitCenter(pool, j)), distance), Clusters))
  }
}

=== FILE: wrappers.dfy ===
/** An optional value, and a value or the error that stopped its computation. */
module Wrappers {

  /** A value that may be absent, as OpenCV's `None` descriptor matrix. */
  datatype Option<+T> = None | Some(value: T)

  /** The outcome of an operation that raises in the Python code. */
  datatype Result<+T, +E> = Success(value: T) | Failure(error: E)

  /** A loop that applies `f` to each element in order and stops at the first raised
      error: all the values when every call succeeded, otherwise the first error. */
  function MapUntilFailure<A, B, E>(f: A -> Result<B, E>, xs: seq<A>): (r: Result<seq<B>, E>)
    ensures r.Success? <==> forall i :: 0 <= i < |xs| ==> f(xs[i]).Success?
    ensures r.Success? ==> |r.value| == |xs| && forall i :: 0 <= i < |xs| ==> f(xs[i]) == Success(r.value[i])
    ensures r.Failure? ==> exists i :: 0 <= i < |xs| && f(xs[i]) == Failure(r.error) && forall j :: 0 <= j < i ==> f(xs[j]).Success?
  {
    if |xs| == 0 then Success([])
    else
      var n := |xs| - 1;
      var prior := MapUntilFailure(f, xs[..n]);
      assert forall i :: 0 <= i < n ==> xs[..n][i] == xs[i];
      if prior.Failure? then Failure(prior.error)
      else
        var last := f(xs[n]);
        if last.Failure? then Failure(last.error)
        else Success(prior.value + [last.value])
  }
}

=== FILE: zero_rows.dfy ===
/** Repair of all-zero samples before MLP training (`ajustar_amostras_zero` in
    modulos/classificadores/mlp.py). */
module ZeroRows {
  import opened Wrappers
  import opened Matrices

  /** `np.all(row == 0)`: vacuously true for a row with no columns. */
  predicate AllZero(row: seq<real>)
  {
    forall c :: 0 <= c < |row| ==> row[c] == 0.0
  }

  /** numpy's IndexError for column 0 of an array that has no columns. */
  datatype AdjustError = NoColumnZero

  /** The row as it leaves the repair. */
  function RepairRow(row: seq<real>): (out: seq<real>)
    requires |row| > 0
    ensures |out| == |row|
    ensures AllZero(row) ==> out[0] == 1.0 && forall c :: 1 <= c < |row| ==> out[c] == 0.0
    ensures !AllZero(row) ==> out == row
  {
    if AllZero(row) then row[0 := 1.0] else row
  }

  /** `ajustar_amostras_zero`: on a copy, set column 0 of every all-zero row to 1. */
  function AdjustZeroSamples(x: Matrix<real>): (r: Result<Matrix<real>, AdjustError>)
    ensures r.Success? <==> x.width > 0
    ensures r.Success? ==> r.value.width == x.width && |r.value.rows| == |x.rows|
    ensures r.Success? ==> forall i :: 0 <= i < |x.rows| && AllZero(x.rows[i]) ==>
              r.value.rows[i][0] == 1.0 && forall c :: 1 <= c < x.width ==> r.value.rows[i][c] == 0.0
    ensures r.Success? ==> forall i :: 0 <= i < |x.rows| && !AllZero(x.rows[i]) ==> r.value.rows[i] == x.rows[i]
    ensures r.Success? ==> forall i, c :: 0 <= i < |x.rows| && 0 < c < x.width ==> r.value.rows[i][c] == x.rows[i][c]
  {
    if x.width == 0 then Failure(NoColumnZero)
    else Success(Grid(x.width, seq(|x.rows|, i requires 0 <= i < |x.rows| => RepairRow(x.rows[i]))))
  }

  /** After the repair no row is all zero. */
  lemma RepairedHasNoZeroRow(x: Matrix<real>)
    requires x.width > 0
    ensures forall i :: 0 <= i < |AdjustZeroSamples(x).value.rows| ==> !AllZero(AdjustZeroSamples(x).value.rows[i])
  {
    var y := AdjustZeroSamples(x).value;
    forall i | 0 <= i < |y.rows|
      ensures !AllZero(y.rows[i])
    {
      if AllZero(x.rows[i]) {
        assert y.rows[i][0] == 1.0;
      }
    }
  }

  /** Applying the repair twice gives the same matrix as applying it once. */
  lemma AdjustIdempotent(x: Matrix<real>)
    requires x.width > 0
    ensures AdjustZeroSamples(AdjustZeroSamples(x).value) == AdjustZeroSamples(x)
  {
    var y := AdjustZeroSamples(x).value;
    RepairedHasNoZeroRow(x);
    assert AdjustZeroSamples(y).value.rows == y.rows;
  }
}
